=== FILE: README.md ===
# Wi-Fi station sample: connection lifecycle model

A Dafny model of the connection-lifecycle core of a Zephyr Wi-Fi station
sample. The sample connects to a stored network, waits for DHCP, reads a
temperature sensor and posts the reading over TLS. Only the sequential
logic that decides connectivity is modelled:

- `ConnFlags` (`flags.dfy`) covers the `context` flag record (`connected`,
  `connect_result`, `disconnect_requested`) and `ip_assigned`. It models
  the two network-management callbacks that update them and the flag
  effects of `wifi_connect`.
- `ReadyLatch` (`latch.dfy`) covers the readiness latch. This is a
  semaphore with initial count 0 and limit 1, plus the
  `wifi_ready_status` boolean that `wifi_ready_cb` overwrites before each
  give.
- `Lifecycle` (`lifecycle.dfy`) models the `start_app` driver loop
  (readiness-library build) as a phase machine. The four phases are
  `WaitGate`, `CheckReady`, `AwaitResult` and `ConnectedWait`. The whole
  system is a fold of atomic transitions: a Wi-Fi callback, a DHCP
  callback, a readiness callback, or one driver step. A blocked take is a
  step that changes nothing. Each driver step is labelled with what it
  did, so properties about the order of takes and connects can be stated
  over runs.
- `HexKey` (`hexkey.dfy`) covers `bytes_from_str`, the decoder for the
  QSPI encryption key. It turns a hex string of exactly two characters per
  byte into bytes and returns `-EINVAL` on a length mismatch. Digits of
  either case are accepted. Its partner is a lower-case encoder, and round
  trips are proved in both directions; an upper-case key decodes to the
  same bytes as its lower-case form.

The outcome of the stored-credentials connect request is an input to a
driver step, because it comes from the network stack. Event codes are a
datatype (`WifiConnectResult`, `WifiDisconnectResult`, `Ipv4DhcpBound`,
`Unrelated(raw)`), because their numeric values come from the kernel
headers.

### Behaviour of the code worth knowing

- `wifi_connect` has no "only when idle" guard. When readiness is
  signalled again while connected, the driver jumps back to
  `check_wifi_ready` (src/main.c:543) and calls `wifi_connect` again. That
  call clears `connected` and `connect_result` although no disconnect was
  reported. `Lifecycle.ReconnectWhileConnected` shows the run.
- A requested disconnect keeps `connected`: the requested branch only
  clears `disconnect_requested` (src/main.c:386-389).
- Nothing in the code sets `disconnect_requested`, so the requested branch
  is unreachable from start-up (`Lifecycle.ReachableFromBoot`).
- The take and the readiness check are separate driver steps. So a
  readiness callback that lands between them is seen by the check: the
  driver acts on the latest value, not on the value current at the take.
- `start_app` discards the return value of `wifi_connect` (src/main.c:528).
  A refused request therefore moves the driver into the status-polling loop
  (src/main.c:530-533) just as an accepted one does. No connect-result
  event follows, so the driver keeps polling. Readiness callbacks only
  refill the latch and do not get it out (`Lifecycle.RefusedConnectIsIgnored`,
  `Lifecycle.RefusedConnectKeepsPolling`).

## Model

| member | source | states |
|---|---|---|
| `ConnFlags.HandleConnectResult` | src/main.c:360-376 | Once connected, a connect result changes nothing. Otherwise it records that a result arrived, and `connected` becomes true exactly when the status is 0. `disconnect_requested` is untouched, and flag consistency is preserved. |
| `ConnFlags.HandleDisconnectResult` | src/main.c:378-396 | Ignored while not connected. A requested disconnect clears the request and keeps `connected`. An unrequested one drops `connected` and leaves the request flag false. `connect_result` is never touched. |
| `ConnFlags.WifiMgmtEventHandler` | src/main.c:398-411 | Routes the two Wi-Fi result codes to their handlers. Every other code leaves the record unchanged. It never sets `disconnect_requested`. |
| `ConnFlags.NetMgmtEventHandler` | src/main.c:424-435 | `ip_assigned` afterwards holds exactly when it held before or the event is DHCP-bound. |
| `ConnFlags.WifiConnect` | src/main.c:437-453 | Whatever the prior state, `connected` and `connect_result` end up false and `disconnect_requested` is kept. Returns 0 exactly when the request is accepted, and `-ENOEXEC` otherwise. |
| `ConnFlags.ConnectResultIdempotent` | src/main.c:364-375 | A connect result delivered twice has the same effect as one delivery. |
| `ConnFlags.ConnectResultAlwaysRecorded` | src/main.c:364-375 | In every consistent state, `connect_result` is set after a connect-result event, even when the handler returns early. |
| `ReadyLatch.Give` | src/main.c:568 | When the driver is not already blocked in the take, a give raises the count by one unless it is at the limit, and never lets it pass the limit. |
| `ReadyLatch.TryTake` | src/main.c:513 | A waiting take proceeds exactly when the count is positive, and then consumes one unit. |
| `ReadyLatch.WifiReadyCb` | src/main.c:564-569 | The latched value becomes the argument, and exactly one signal is pending afterwards. |
| `ReadyLatch.LastSignalWins` | src/main.c:564-569 | After k >= 1 callbacks with no take between them, the latched value is the last one written and the count is exactly 1. |
| `ReadyLatch.ExactlyOneTake` | src/main.c:67 | After such a burst of callbacks, arriving when the driver is not already blocked in the take, the first take proceeds and a second take blocks. |
| `ReadyLatch.TrueThenFalseWakesOnceWithFalse` | src/main.c:564-569 | Signalling true then false, when the driver is not already blocked in the take, gives one wake, and it sees false. |
| `Lifecycle.TakeStep` | src/main.c:513-543 | Models both take sites (the outer one and the one in the connected branch). A take blocks with no state change when no signal is pending. Otherwise it consumes the signal and moves to the readiness check. The flags and `ip_assigned` are unchanged. |
| `Lifecycle.DriverStep` | src/main.c:508-548 | `wifi_connect` is called exactly when the driver is at the readiness check with true latched. The readiness check is entered only by a take. False latched goes back to the take with the flags untouched. A failed result goes back to the take, not to a retry. With no result yet the driver polls without change. Only a take touches the latch, and only `wifi_connect` touches the flags. |
| `Lifecycle.Step` | src/main.c:576-584 | Callbacks never move the driver phase. A Wi-Fi event changes only the flag record, through the Wi-Fi handler. A readiness callback changes only the latch. A DHCP event changes only `ip_assigned`, which afterwards holds exactly when it held before or the event was DHCP-bound. A driver action is exactly one step of the driver loop, so every property of `DriverStep` carries over to runs. |
| `Lifecycle.StepKeepsInvariant` | src/main.c:360-453 | Every transition keeps these facts: `connected` implies `connect_result`, no disconnect request is set, at most one signal is pending, and the connected wait has a recorded result. |
| `Lifecycle.RunKeepsInvariant` | src/main.c:360-453 | The invariant holds after every sequence of transitions. |
| `Lifecycle.ReachableFromBoot` | src/main.c:572-574 | From the zeroed start-up state, under any interleaving: `disconnect_requested` stays false, `connected` implies `connect_result`, and at most one readiness signal is pending. |
| `Lifecycle.IpAssignedIffBound` | src/main.c:424-435 | After any run, `ip_assigned` holds exactly when it held at the start or the run delivered a DHCP-bound event. |
| `Lifecycle.IpAssignedMonotone` | src/main.c:75 | Once a prefix of a run sets `ip_assigned`, it stays set for the whole run. |
| `Lifecycle.ConnectFollowsTake` | src/main.c:508-528 | In the driver's label sequence, every `wifi_connect` comes straight after a take, unless the run began at the readiness check. |
| `Lifecycle.ConnectOnlyAfterTake` | src/main.c:513-528 | From start-up, every `wifi_connect` is immediately preceded by a take of the latch. |
| `Lifecycle.NoConnectWhileNotReady` | src/main.c:519-526 | While every readiness callback reports false, no driver step calls `wifi_connect`. |
| `Lifecycle.FailedAttemptWaitsForGate` | src/main.c:535-548 | After a failed attempt, the driver's next step returns to the take. Any later connect is preceded by a fresh take. |
| `Lifecycle.SuccessfulAttempt` | src/main.c:528-543 | The sequence ready, take, connect, result 0, then one driver step ends in the connected wait with `connected` set. |
| `Lifecycle.FailedAttempt` | src/main.c:528-548 | The same sequence with result 1 ends back at the take, with the result recorded and `connected` false. |
| `Lifecycle.BlockedDriverWakesPerSignal` | src/main.c:513-526 | With the driver already blocked in the take, signalling true then false wakes it twice. It takes, sees false, goes back to the take, finds the second signal, sees false again, then blocks. |
| `Lifecycle.RefusedConnectIsIgnored` | src/main.c:528-533 | Whether or not the connect request is accepted, the driver step has the same effect and label. |
| `Lifecycle.RefusedConnectKeepsPolling` | src/main.c:528-533 | After a refused request the driver stays in the status-polling loop. Later readiness callbacks leave it polling. |
| `Lifecycle.ReconnectWhileConnected` | src/main.c:535-543 | A readiness signal while connected leads to a take and then `wifi_connect`, which clears `connected` with no disconnect reported. |
| `HexKey.HexVal` | src/main.c:468 | A hex digit of either case has a value below 16. |
| `HexKey.UpperDigitValue` | src/main.c:468 | Base-16 parsing reads the upper-case letters A-F as 10-15, the same values as their lower-case forms, which the encoder prints back. |
| `HexKey.HexValIgnoresCase` | src/main.c:468 | A digit and its lower-case form parse to the same value. |
| `HexKey.PairValue` | src/main.c:466-468 | The byte parsed from a two-character group has the high digit's value as its upper nibble and the low digit's value as its lower nibble, so it is 16 times the high value plus the low value, below 256. |
| `HexKey.CStrLen` | src/main.c:460 | The C length is the number of characters before the first NUL, or the whole string if it has none. |
| `HexKey.DecodeHex` | src/main.c:465-469 | A reference decoding. Byte i is 16 times the value of character 2i plus the value of character 2i+1, and there are half as many bytes as characters. |
| `HexKey.EncodedKeyLength` | src/main.c:460-463 | An encoded key holds no NUL, so its C length is two characters per byte and the length check accepts it. |
| `HexKey.DecodeEncode` | src/main.c:465-469 | An encoded key decodes back to the key. |
| `HexKey.DecodeIgnoresCase` | src/main.c:465-469 | Folding a key to lower case does not change the bytes it decodes to. |
| `HexKey.EncodeDecodeAnyCase` | src/main.c:465-469 | A hex key of either case, of even length, decodes to bytes whose encoding is the key in lower case. |
| `HexKey.EncodeDecode` | src/main.c:465-469 | A lower-case hex string of even length decodes to bytes that encode back to the same string. |
| `HexKey.BytesFromStr` | src/main.c:455-472 | A C length other than twice the buffer size gives `-EINVAL` and an untouched buffer. Otherwise the result is 0 and every byte is its group's base-16 value, which is the reference decoding of the key. |

## Left out

- ReadyLatch.Give: the kernel's direct hand-off is not modelled as a separate rule. When a thread is already blocked in the take, the kernel wakes it and leaves the count at 0. The model represents this as the callback's give, followed at once by a take step that brings the count back to 0 (`Lifecycle.BlockedDriverWakesPerSignal`). So `ExactlyOneTake` and `TrueThenFalseWakesOnceWithFalse` describe bursts that arrive while the driver is not yet blocked in the take.
- HexKey.BytesFromStr: characters that are not hex digits are not modelled when the length check passes. Base-16 parsing of a sign, whitespace, a `0x` prefix or a stray character would need the C library's `strtol` rules. A mismatched length is modelled for every string.
- HexKey.BytesFromStr: the `size_t` wrap-around of `bytes_len * 2` is not modelled. On the 32-bit boards this sample targets, it needs `bytes_len >= 2^31`, and the only caller passes `sizeof(key)`, the QSPI key length (src/main.c:482).
- Status queries (`cmd_wifi_status`) are not modelled. They only log, and they never touch the flags. The polling step is therefore a driver step that changes nothing.
- Log messages, and the status code carried by a disconnect result, are not modelled. The code only logs them.
- The `return ret` after a failed semaphore take is not modelled. A take that waits forever only returns once the semaphore is acquired.
- Sleeps and polling intervals (300 ms status polling, 500 ms waits in `main`) are not modelled. A blocked or sleeping thread is a step that changes nothing.
- Preemption inside a callback and torn bit-field writes are not modelled. Each callback and each driver step is one atomic transition.
- The wait loops in `main` for `ip_assigned` and `connected` are not modelled. They only read the flags this model defines.
- The LED thread (`toggle_led`) is not modelled. It only reads `connected` and drives a GPIO.
- Callback registration, `register_wifi_ready`, thread definitions and start-up logging are not modelled. They are kernel plumbing, and their effects are fixed in the `Boot` state. The failure paths are covered by the next line.
- QSPI encryption enablement and key logging in `start_app` are not modelled. They are hardware calls around the pure `bytes_from_str`.
- The early exits of `main` are not modelled. `main` returns before registering the callbacks and before starting the driver thread in two cases: the I2C bus or the TMP117 sensor is not ready (src/main.c:628-642), or `register_wifi_ready` fails (src/main.c:651-654). The driver thread is defined not to start by itself (src/main.c:556-557), so in those cases it never runs, on any board. `Lifecycle.Boot` assumes neither happens.
- The early exit of `start_app` on the nRF7002DK boards is not modelled. When a key is configured and `bytes_from_str` fails (src/main.c:482-486), or `qspi_enable_encryption` fails (src/main.c:494-498), `start_app` returns before the driver loop, so `wifi_connect` is never called. `Lifecycle.Boot` also assumes the loop is reached, which holds on other boards, with no key configured, or with a well-formed key that the hardware accepts.
- The build without the readiness library is not modelled. It makes a connect, retries it at once on failure with no readiness check (src/main.c:528-535), and sleeps forever once connected (src/main.c:545).
- The sensor path (I2C scan, TMP117 fetch, float conversion), the TLS/HTTP post to the database, and the embedded certificate are not modelled. They are hardware I/O, floating point and socket/TLS calls.

=== FILE: flags.dfy ===
/**
 The connection-flag record of the Wi-Fi station sample and the event
 handlers that update it.

 In the sample, `context` is a bit-field union of three one-bit flags
 (the five unused bits are always zero and are not modelled). It is
 zeroed once at start-up and afterwards changed only by the Wi-Fi
 management callback and by `wifi_connect`. The DHCP callback owns the
 separate `ip_assigned` flag.
 */
module ConnFlags {

  /** The `context` flag record. */
  datatype Context = Context(connected: bool, connectResult: bool, disconnectRequested: bool)

  /** The record after the start-up `memset` to zero. */
  const Zeroed: Context := Context(false, false, false)

  /** The value of `ENOEXEC` returned by `wifi_connect` when the request is refused. */
  const ENOEXEC: int := 8

  /** Network-management event codes that can be delivered to a callback.
      Only three codes are acted upon; every other code is `Unrelated`. */
  datatype EventCode =
    | WifiConnectResult
    | WifiDisconnectResult
    | Ipv4DhcpBound
    | Unrelated(raw: nat)

  /** The flag facts that hold in every state reachable from `Zeroed`:
      `connected` is only ever set together with `connect_result`, and
      nothing ever sets `disconnect_requested`. */
  predicate Consistent(c: Context)
  {
    && (c.connected ==> c.connectResult)
    && !c.disconnectRequested
  }

  /** `handle_wifi_connect_result`: ignored once connected; otherwise
      records that a result arrived and sets `connected` exactly when the
      status code is zero. */
  function HandleConnectResult(c: Context, status: int): (r: Context)
    ensures c.connected ==> r == c
    ensures !c.connected ==> r.connectResult && (r.connected <==> status == 0)
    ensures r.disconnectRequested == c.disconnectRequested
    ensures Consistent(c) ==> Consistent(r)
  {
    if c.connected then c
    else
      var c' := if status != 0 then c else c.(connected := true);
      c'.(connectResult := true)
  }

  /** `handle_wifi_disconnect_result`: ignored while not connected. A
      requested disconnect only clears the request and leaves `connected`
      set; an unrequested one drops `connected`. The status code is only
      logged, and `connect_result` is never touched. */
  function HandleDisconnectResult(c: Context, status: int): (r: Context)
    ensures !c.connected ==> r == c
    ensures c.connected && c.disconnectRequested ==> r.connected && !r.disconnectRequested
    ensures c.connected && !c.disconnectRequested ==> !r.connected && !r.disconnectRequested
    ensures r.connectResult == c.connectResult
    ensures Consistent(c) ==> Consistent(r)
  {
    if !c.connected then c
    else if c.disconnectRequested then c.(disconnectRequested := false)
    else c.(connected := false)
  }

  /** `wifi_mgmt_event_handler`: dispatches the two Wi-Fi result codes and
      ignores every other code. */
  function WifiMgmtEventHandler(c: Context, code: EventCode, status: int): (r: Context)
    ensures code == WifiConnectResult ==> r == HandleConnectResult(c, status)
    ensures code == WifiDisconnectResult ==> r == HandleDisconnectResult(c, status)
    ensures code != WifiConnectResult && code != WifiDisconnectResult ==> r == c
    ensures r.disconnectRequested ==> c.disconnectRequested
  {
    match code
    case WifiConnectResult => HandleConnectResult(c, status)
    case WifiDisconnectResult => HandleDisconnectResult(c, status)
    case _ => c
  }

  /** `net_mgmt_event_handler` acting on `ip_assigned`: a DHCP-bound event
      sets it, every other code leaves it alone, and nothing clears it. */
  function NetMgmtEventHandler(ipAssigned: bool, code: EventCode): (r: bool)
    ensures r <==> ipAssigned || code == Ipv4DhcpBound
  {
    match code
    case Ipv4DhcpBound => true
    case _ => ipAssigned
  }

  /** The flag effects and return code of `wifi_connect`. Whether the
      network stack accepts the stored-credentials connect request is an
      input. The flags are cleared before the request is made, whatever
      the prior state. */
  function WifiConnect(c: Context, requestAccepted: bool): (r: (Context, int))
    ensures !r.0.connected && !r.0.connectResult
    ensures r.0.disconnectRequested == c.disconnectRequested
    ensures requestAccepted <==> r.1 == 0
    ensures !requestAccepted ==> r.1 == -ENOEXEC
    ensures Consistent(c) ==> Consistent(r.0)
  {
    var cleared := c.(connected := false, connectResult := false);
    if requestAccepted then (cleared, 0) else (cleared, -ENOEXEC)
  }

  /** A connect result delivered twice in a row has the same effect as
      delivering it once: duplicate notifications are harmless. */
  lemma ConnectResultIdempotent(c: Context, status: int)
    ensures HandleConnectResult(HandleConnectResult(c, status), status) == HandleConnectResult(c, status)
  {
  }

  /** In every consistent state a connect-result event leaves
      `connect_result` set, whether or not the handler took its early return. */
  lemma ConnectResultAlwaysRecorded(c: Context, status: int)
    requires Consistent(c)
    ensures HandleConnectResult(c, status).connectResult
  {
  }
}

=== FILE: hexkey.dfy ===
/**
 `bytes_from_str`: the decoder that turns the configured QSPI encryption
 key, a hex string of exactly two characters per byte, into bytes.

 The string is a C string: its length is the number of characters
 before the first NUL. The output buffer is passed in and handed back,
 so the error path can be seen to leave it untouched.
 */
module HexKey {

  newtype uint8 = x: int | 0 <= x < 256

  /** The value of `EINVAL`; the decoder returns its negation on a length mismatch. */
  const EINVAL: int := 22

  predicate IsHexDigit(c: char)
  {
    ('0' <= c <= '9') || ('a' <= c <= 'f') || ('A' <= c <= 'F')
  }

  predicate AllHex(s: seq<char>)
  {
    forall i :: 0 <= i < |s| ==> IsHexDigit(s[i])
  }

  /** The value of one hex digit, either case, as base-16 parsing reads it. */
  function HexVal(c: char): (v: nat)
    requires IsHexDigit(c)
    ensures v < 16
  {
    if c <= '9' then c as int - '0' as int
    else if c >= 'a' then c as int - 'a' as int + 10
    else c as int - 'A' as int + 10
  }

  /** The lower-case hex digit of a value below 16. */
  function HexDigit(v: nat): (c: char)
    requires v < 16
    ensures IsHexDigit(c) && HexVal(c) == v
    ensures !('A' <= c <= 'F')
  {
    if v < 10 then ('0' as int + v) as char else ('a' as int + v - 10) as char
  }

  /** Folds an upper-case hex letter to lower case; other characters are kept. */
  function ToLower(c: char): (r: char)
  {
    if 'A' <= c <= 'F' then (c as int - 'A' as int + 'a' as int) as char else c
  }

  /** Base-16 parsing does not care about case: a digit and its lower-case
      form have the same value. */
  lemma HexValIgnoresCase(c: char)
    requires IsHexDigit(c)
    ensures IsHexDigit(ToLower(c)) && !('A' <= ToLower(c) <= 'F')
    ensures HexVal(ToLower(c)) == HexVal(c)
  {
  }

  /** Base-16 parsing reads the upper-case letters A-F as 10-15, and the
      lower-case encoder prints that value as the matching lower-case letter. */
  lemma UpperDigitValue(c: char)
    requires 'A' <= c <= 'F'
    ensures IsHexDigit(c) && HexVal(c) == c as int - 'A' as int + 10
    ensures HexDigit(HexVal(c)) == ToLower(c)
  {
  }

  /** Parsing a lower-case digit and printing it again gives it back. */
  lemma DigitRoundTrip(c: char)
    requires IsHexDigit(c) && !('A' <= c <= 'F')
    ensures HexDigit(HexVal(c)) == c
  {
  }

  /** `strlen`: the number of characters before the first NUL, or the
      whole sequence if it holds none. */
  function CStrLen(s: seq<char>): (n: nat)
    ensures n <= |s|
    ensures forall i :: 0 <= i < n ==> s[i] != '\0'
    ensures n < |s| ==> s[n] == '\0'
    decreases |s|
  {
    if |s| == 0 || s[0] == '\0' then 0 else 1 + CStrLen(s[1..])
  }

  /** The byte a two-character group denotes in base 16, high digit
      first: the high digit is the byte's upper nibble and the low digit
      its lower nibble. */
  function PairValue(hi: char, lo: char): (b: uint8)
    requires IsHexDigit(hi) && IsHexDigit(lo)
    ensures b as int / 16 == HexVal(hi)
    ensures b as int % 16 == HexVal(lo)
  {
    (16 * HexVal(hi) + HexVal(lo)) as uint8
  }

  /** Reference decoding of a hex string, one two-character group per byte. */
  function DecodeHex(s: seq<char>): (r: seq<uint8>)
    requires |s| % 2 == 0 && AllHex(s)
    ensures 2 * |r| == |s|
    ensures forall i :: 0 <= i < |r| ==> r[i] == PairValue(s[2 * i], s[2 * i + 1])
    decreases |s|
  {
    if |s| == 0 then [] else [PairValue(s[0], s[1])] + DecodeHex(s[2..])
  }

  /** Lower-case hex encoding, two characters per byte, high digit first. */
  function EncodeHex(b: seq<uint8>): (s: seq<char>)
    ensures |s| == 2 * |b|
    ensures AllHex(s)
    ensures forall i :: 0 <= i < |s| ==> !('A' <= s[i] <= 'F')
    ensures forall i :: 0 <= i < |b| ==> s[2 * i] == HexDigit(b[i] as int / 16) && s[2 * i + 1] == HexDigit(b[i] as int % 16)
    decreases |b|
  {
    if |b| == 0 then []
    else [HexDigit(b[0] as int / 16), HexDigit(b[0] as int % 16)] + EncodeHex(b[1..])
  }

  /** An encoded key holds no NUL, so its C length is exactly two
      characters per byte and the length check accepts it. */
  lemma {:induction false} EncodedKeyLength(b: seq<uint8>)
    ensures CStrLen(EncodeHex(b)) == 2 * |b|
    decreases |b|
  {
    if |b| > 0 {
      var s := EncodeHex(b);
      EncodedKeyLength(b[1..]);
      assert s[2..] == EncodeHex(b[1..]);
      assert s[1..][1..] == s[2..];
    }
  }

  /** Decoding an encoded key gives the key back. */
  lemma DecodeEncode(b: seq<uint8>)
    ensures DecodeHex(EncodeHex(b)) == b
  {
  }

  /** Encoding a decoded lower-case hex string gives the string back. */
  lemma {:induction false} EncodeDecode(s: seq<char>)
    requires |s| % 2 == 0 && AllHex(s)
    requires forall i :: 0 <= i < |s| ==> !('A' <= s[i] <= 'F')
    ensures EncodeHex(DecodeHex(s)) == s
    decreases |s|
  {
    if |s| > 0 {
      var rest := s[2..];
      assert forall i :: 0 <= i < |rest| ==> rest[i] == s[i + 2];
      EncodeDecode(rest);
      var v := PairValue(s[0], s[1]) as int;
      assert v / 16 == HexVal(s[0]) && v % 16 == HexVal(s[1]);
      DigitRoundTrip(s[0]);
      DigitRoundTrip(s[1]);
      assert DecodeHex(s) == [PairValue(s[0], s[1])] + DecodeHex(rest);
      assert DecodeHex(s)[1..] == DecodeHex(rest);
    }
  }

  /** A hex string with every letter folded to lower case. */
  function LowerAll(s: seq<char>): (r: seq<char>)
    ensures |r| == |s|
    ensures forall i :: 0 <= i < |s| ==> r[i] == ToLower(s[i])
  {
    seq(|s|, i requires 0 <= i < |s| => ToLower(s[i]))
  }

  /** Folding the case of a key does not change what it decodes to. */
  lemma DecodeIgnoresCase(s: seq<char>)
    requires |s| % 2 == 0 && AllHex(s)
    ensures AllHex(LowerAll(s))
    ensures DecodeHex(LowerAll(s)) == DecodeHex(s)
  {
    var l := LowerAll(s);
    forall i | 0 <= i < |s| ensures IsHexDigit(l[i]) && HexVal(l[i]) == HexVal(s[i]) {
      HexValIgnoresCase(s[i]);
    }
    var a := DecodeHex(l);
    var b := DecodeHex(s);
    forall i | 0 <= i < |a| ensures a[i] == b[i] {
      assert HexVal(l[2 * i]) == HexVal(s[2 * i]);
      assert HexVal(l[2 * i + 1]) == HexVal(s[2 * i + 1]);
    }
  }

  /** A key written in either case decodes to bytes whose encoding is the
      key in lower case. */
  lemma EncodeDecodeAnyCase(s: seq<char>)
    requires |s| % 2 == 0 && AllHex(s)
    ensures EncodeHex(DecodeHex(s)) == LowerAll(s)
  {
    DecodeIgnoresCase(s);
    var l := LowerAll(s);
    forall i | 0 <= i < |l| ensures !('A' <= l[i] <= 'F') {
      HexValIgnoresCase(s[i]);
    }
    EncodeDecode(l);
  }

  /** `bytes_from_str`. A C length other than twice the buffer size is
      rejected with `-EINVAL` and the buffer comes back untouched;
      otherwise every byte of the buffer is overwritten with the value of
      its two-character group and the result is 0. Only strings whose
      first `2 * |bytes|` characters are hex digits are modelled when the
      length check passes. */
  method BytesFromStr(str: seq<char>, bytes: seq<uint8>) returns (ret: int, out: seq<uint8>)
    requires CStrLen(str) == 2 * |bytes| ==> AllHex(str[..2 * |bytes|])
    ensures CStrLen(str) != 2 * |bytes| ==> ret == -EINVAL && out == bytes
    ensures CStrLen(str) == 2 * |bytes| ==> ret == 0 && |out| == |bytes|
    ensures ret == 0 ==> forall i :: 0 <= i < |out| ==> out[i] == PairValue(str[2 * i], str[2 * i + 1])
    ensures ret == 0 ==> out == DecodeHex(str[..2 * |bytes|])
  {
    if CStrLen(str) != 2 * |bytes| {
      return -EINVAL, bytes;
    }
    ghost var key := str[..2 * |bytes|];
    assert forall j :: 0 <= j < |key| ==> IsHexDigit(str[j]);
    out := bytes;
    var i := 0;
    while i < |bytes|
      invariant 0 <= i <= |bytes|
      invariant |out| == |bytes|
      invariant forall j :: 0 <= j < i ==> out[j] == PairValue(str[2 * j], str[2 * j + 1])
    {
      out := out[i := PairValue(str[2 * i], str[2 * i + 1])];
      i := i + 1;
    }
    ret := 0;
    assert out == DecodeHex(key);
  }
}

=== FILE: latch.dfy ===
/**
 The readiness latch: a counting semaphore defined with initial count 0
 and limit 1, paired with the `wifi_ready_status` boolean that the
 readiness callback overwrites before every give.
 */
module ReadyLatch {

  /** A kernel semaphore: its current count and its limit. */
  datatype Semaphore = Semaphore(count: nat, limit: nat)

  /** The latch semaphore as defined: count 0, limit 1. */
  const InitialSem: Semaphore := Semaphore(0, 1)

  /** Outcome of a blocking take: the caller either proceeds with the
      decremented semaphore or stays blocked. */
  datatype TakeOutcome = WouldBlock | Acquired(sem: Semaphore)

  /** The semaphore together with the latched readiness value. */
  datatype Gate = Gate(sem: Semaphore, ready: bool)

  /** The gate at start-up; the static boolean starts out false. */
  const InitialGate: Gate := Gate(InitialSem, false)

  /** A semaphore whose count has not run past its limit. */
  predicate WellFormed(s: Semaphore)
  {
    s.count <= s.limit
  }

  /** The latch discipline: a limit of one, so at most one pending signal. */
  predicate SingleSlot(g: Gate)
  {
    g.sem.limit == 1 && WellFormed(g.sem)
  }

  /** Give: the count grows by one unless it already equals the limit. */
  function Give(s: Semaphore): (r: Semaphore)
    ensures r.limit == s.limit
    ensures WellFormed(s) ==> WellFormed(r) && r.count == if s.count < s.limit then s.count + 1 else s.limit
    ensures r.count >= s.count
  {
    if s.count != s.limit then s.(count := s.count + 1) else s
  }

  /** A take that waits forever: it proceeds exactly when the count is
      positive, and then consumes one unit. */
  function TryTake(s: Semaphore): (r: TakeOutcome)
    ensures r.WouldBlock? <==> s.count == 0
    ensures r.Acquired? ==> r.sem.count + 1 == s.count && r.sem.limit == s.limit
  {
    if s.count > 0 then Acquired(s.(count := s.count - 1)) else WouldBlock
  }

  /** `wifi_ready_cb`: overwrite the latched value, then give. */
  function WifiReadyCb(g: Gate, ready: bool): (r: Gate)
    ensures r.ready == ready
    ensures SingleSlot(g) ==> SingleSlot(r) && r.sem.count == 1
  {
    Gate(Give(g.sem), ready)
  }

  /** A run of readiness callbacks with no take in between. */
  function SignalAll(g: Gate, signals: seq<bool>): (r: Gate)
    decreases |signals|
  {
    if |signals| == 0 then g else SignalAll(WifiReadyCb(g, signals[0]), signals[1..])
  }

  /** However many callbacks arrive before the driver takes the latch,
      exactly one signal is pending and the latched value is the last one
      written: signals overwrite, they do not queue. */
  lemma {:induction false} LastSignalWins(g: Gate, signals: seq<bool>)
    requires SingleSlot(g)
    requires |signals| >= 1
    ensures SignalAll(g, signals).ready == signals[|signals| - 1]
    ensures SignalAll(g, signals).sem == Semaphore(1, 1)
    decreases |signals|
  {
    var g' := WifiReadyCb(g, signals[0]);
    if |signals| > 1 {
      LastSignalWins(g', signals[1..]);
    }
  }

  /** After one or more callbacks, the first take proceeds and a second
      take blocks: when the driver is not already blocked in the take, a
      burst of signals wakes it exactly once. (A give to a driver already
      blocked in the take is a callback followed at once by a take step;
      see `Lifecycle.BlockedDriverWakesPerSignal`.) */
  lemma {:induction false} ExactlyOneTake(g: Gate, signals: seq<bool>)
    requires SingleSlot(g)
    requires |signals| >= 1
    ensures var s := SignalAll(g, signals).sem;
      TryTake(s) == Acquired(Semaphore(0, 1)) && TryTake(TryTake(s).sem) == WouldBlock
  {
    LastSignalWins(g, signals);
  }

  /** Readiness signalled true and then false while the driver is not
      already blocked in the take: one wake, and it sees false. */
  lemma TrueThenFalseWakesOnceWithFalse()
    ensures var g := SignalAll(InitialGate, [true, false]);
      g.ready == false && TryTake(g.sem) == Acquired(Semaphore(0, 1))
  {
  }
}

=== FILE: lifecycle.dfy ===
/**
 The lifecycle driver of `start_app` (readiness-library build) as an
 explicit phase machine, and the whole system as a fold of atomic
 transitions. Each callback and each driver step is one transition;
 preemption inside a callback is not modelled.

 Driver phases, named after the program point the driver thread is at:
 - `WaitGate`: the blocking take at the top of the outer loop;
 - `CheckReady`: the `check_wifi_ready` label, reading the latched value;
 - `AwaitResult`: the status-polling loop after `wifi_connect`;
 - `ConnectedWait`: the blocking take in the connected branch, which
   jumps back to `check_wifi_ready`.
 */
module Lifecycle {
  import opened ConnFlags
  import opened ReadyLatch

  datatype Phase = WaitGate | CheckReady | AwaitResult | ConnectedWait

  /** Every piece of state the core shares between threads. */
  datatype System = System(ctx: Context, ipAssigned: bool, gate: Gate, phase: Phase)

  /** The state once callbacks are registered and the driver thread starts. */
  const Boot: System := System(Zeroed, false, InitialGate, WaitGate)

  /** What one driver step did. */
  datatype Label =
    | Blocked        // a take found no pending signal
    | Took           // a take consumed the pending signal
    | NotReady       // the latched value was false: back to the outer take
    | ConnectIssued  // `wifi_connect` was called
    | Polled         // no result yet: one status query and one sleep
    | SawConnected   // the result arrived and the link is up
    | SawFailed      // the result arrived and the attempt failed

  /** The atomic transitions of the system. A callback carries the code
      (and for Wi-Fi results the status) it is delivered with; a driver
      step carries whether the network stack would accept a connect
      request, which matters only if the step issues one. */
  datatype Action =
    | WifiEvent(code: EventCode, status: int)
    | NetEvent(code: EventCode)
    | ReadyCb(ready: bool)
    | Drive(requestAccepted: bool)

  /** A blocking take at either take site of the driver loop. */
  function TakeStep(s: System): (r: (System, Label))
    ensures r.1 == Blocked <==> s.gate.sem.count == 0
    ensures r.1 == Blocked ==> r.0 == s
    ensures r.1 == Took ==> r.0.phase == CheckReady && r.0.gate.ready == s.gate.ready
    ensures r.1 == Took ==> r.0.gate.sem.count + 1 == s.gate.sem.count
    ensures r.1 == Blocked || r.1 == Took
    ensures r.0.ctx == s.ctx && r.0.ipAssigned == s.ipAssigned
  {
    match TryTake(s.gate.sem)
    case WouldBlock => (s, Blocked)
    case Acquired(sem') => (s.(gate := s.gate.(sem := sem'), phase := CheckReady), Took)
  }

  /** One step of the driver thread. */
  function DriverStep(s: System, requestAccepted: bool): (r: (System, Label))
    // a connect is issued exactly from the readiness check with true latched
    ensures r.1 == ConnectIssued <==> s.phase == CheckReady && s.gate.ready
    ensures r.1 == ConnectIssued ==> r.0.phase == AwaitResult && !r.0.ctx.connected && !r.0.ctx.connectResult
    // the readiness check is entered only by a take
    ensures r.0.phase == CheckReady <==> r.1 == Took
    ensures r.1 == Took ==> (s.phase == WaitGate || s.phase == ConnectedWait) && s.gate.sem.count > 0
    ensures r.1 == Blocked <==> (s.phase == WaitGate || s.phase == ConnectedWait) && s.gate.sem.count == 0
    ensures r.1 == Blocked ==> r.0 == s
    // a false latched value returns to waiting without touching the flags
    ensures s.phase == CheckReady && !s.gate.ready ==> r.1 == NotReady && r.0.phase == WaitGate && r.0.ctx == s.ctx
    // after a failed attempt the next move is back to the take, not a retry
    ensures s.phase == AwaitResult && s.ctx.connectResult && !s.ctx.connected ==> r.1 == SawFailed && r.0.phase == WaitGate
    ensures s.phase == AwaitResult && !s.ctx.connectResult ==> r.0 == s
    ensures s.phase == AwaitResult && s.ctx.connectResult && s.ctx.connected ==> r.0.phase == ConnectedWait
    // only `wifi_connect` changes flags; the driver never changes `ip_assigned`
    ensures r.1 != ConnectIssued ==> r.0.ctx == s.ctx
    ensures r.0.ipAssigned == s.ipAssigned
    ensures r.0.ctx.disconnectRequested == s.ctx.disconnectRequested
    // only a take touches the latch
    ensures r.1 != Took ==> r.0.gate == s.gate
  {
    match s.phase
    case WaitGate => TakeStep(s)
    case ConnectedWait => TakeStep(s)
    case CheckReady =>
      if !s.gate.ready then (s.(phase := WaitGate), NotReady)
      else (s.(ctx := WifiConnect(s.ctx, requestAccepted).0, phase := AwaitResult), ConnectIssued)
    case AwaitResult =>
      if !s.ctx.connectResult then (s, Polled)
      else if s.ctx.connected then (s.(phase := ConnectedWait), SawConnected)
      else (s.(phase := WaitGate), SawFailed)
  }

  /** One atomic transition of the whole system. */
  function Step(s: System, a: Action): (r: System)
    ensures !a.Drive? ==> r.phase == s.phase
    ensures !a.ReadyCb? ==> r.gate.ready == s.gate.ready
    ensures r.ipAssigned <==> s.ipAssigned || a == NetEvent(Ipv4DhcpBound)
    // each callback touches only the state its handler owns
    ensures a.WifiEvent? ==> r.ctx == WifiMgmtEventHandler(s.ctx, a.code, a.status)
    ensures a.ReadyCb? || a.NetEvent? ==> r.ctx == s.ctx
    ensures a.ReadyCb? ==> r.gate == WifiReadyCb(s.gate, a.ready)
    ensures a.WifiEvent? || a.NetEvent? ==> r.gate == s.gate
    // a driver action is exactly one step of the driver loop
    ensures a.Drive? ==> r == DriverStep(s, a.requestAccepted).0
  {
    match a
    case WifiEvent(code, status) => s.(ctx := WifiMgmtEventHandler(s.ctx, code, status))
    case NetEvent(code) => s.(ipAssigned := NetMgmtEventHandler(s.ipAssigned, code))
    case ReadyCb(ready) => s.(gate := WifiReadyCb(s.gate, ready))
    case Drive(requestAccepted) => DriverStep(s, requestAccepted).0
  }

  /** The state after a sequence of transitions. */
  function Run(s: System, acts: seq<Action>): (r: System)
    decreases |acts|
  {
    if |acts| == 0 then s else Run(Step(s, acts[0]), acts[1..])
  }

  /** The labels of the driver steps in a sequence of transitions, in order. */
  function Labels(s: System, acts: seq<Action>): (r: seq<Label>)
    decreases |acts|
  {
    if |acts| == 0 then []
    else
      var here := if acts[0].Drive? then [DriverStep(s, acts[0].requestAccepted).1] else [];
      here + Labels(Step(s, acts[0]), acts[1..])
  }

  /** The facts that hold in every reachable state. */
  predicate Invariant(s: System)
  {
    && Consistent(s.ctx)
    && SingleSlot(s.gate)
    && (s.phase == ConnectedWait ==> s.ctx.connectResult)
  }

  lemma StepKeepsInvariant(s: System, a: Action)
    requires Invariant(s)
    ensures Invariant(Step(s, a))
  {
  }

  /** Every transition sequence preserves the invariant. */
  lemma {:induction false} RunKeepsInvariant(s: System, acts: seq<Action>)
    requires Invariant(s)
    ensures Invariant(Run(s, acts))
    decreases |acts|
  {
    if |acts| > 0 {
      StepKeepsInvariant(s, acts[0]);
      RunKeepsInvariant(Step(s, acts[0]), acts[1..]);
    }
  }

  /** From start-up, under any interleaving of events, callbacks and
      driver steps: `disconnect_requested` is never set, `connected`
      implies a result was recorded, and at most one readiness signal is
      pending. */
  lemma ReachableFromBoot(acts: seq<Action>)
    ensures var s := Run(Boot, acts);
      && !s.ctx.disconnectRequested
      && (s.ctx.connected ==> s.ctx.connectResult)
      && s.gate.sem.count <= 1
  {
    RunKeepsInvariant(Boot, acts);
  }

  /** `ip_assigned` holds after a run exactly when it held before or the
      run delivered a DHCP-bound event: it is set by nothing else and
      cleared by nothing. */
  lemma {:induction false} IpAssignedIffBound(s: System, acts: seq<Action>)
    ensures Run(s, acts).ipAssigned <==>
      s.ipAssigned || exists i :: 0 <= i < |acts| && acts[i] == NetEvent(Ipv4DhcpBound)
    decreases |acts|
  {
    if |acts| > 0 {
      IpAssignedIffBound(Step(s, acts[0]), acts[1..]);
      if Run(s, acts).ipAssigned && !Step(s, acts[0]).ipAssigned {
        var i :| 0 <= i < |acts[1..]| && acts[1..][i] == NetEvent(Ipv4DhcpBound);
        assert acts[i + 1] == NetEvent(Ipv4DhcpBound);
      }
      if exists i :: 0 <= i < |acts| && acts[i] == NetEvent(Ipv4DhcpBound) {
        var i :| 0 <= i < |acts| && acts[i] == NetEvent(Ipv4DhcpBound);
        if i > 0 {
          assert acts[1..][i - 1] == NetEvent(Ipv4DhcpBound);
        }
      }
    }
  }

  lemma {:induction false} RunAppend(s: System, xs: seq<Action>, ys: seq<Action>)
    ensures Run(s, xs + ys) == Run(Run(s, xs), ys)
    decreases |xs|
  {
    if |xs| == 0 {
      assert xs + ys == ys;
    } else {
      assert (xs + ys)[0] == xs[0];
      assert (xs + ys)[1..] == xs[1..] + ys;
      RunAppend(Step(s, xs[0]), xs[1..], ys);
    }
  }

  /** `ip_assigned` is monotone: once set by a prefix of a run, it stays
      set for the whole run. */
  lemma IpAssignedMonotone(s: System, acts: seq<Action>, k: nat)
    requires k <= |acts|
    requires Run(s, acts[..k]).ipAssigned
    ensures Run(s, acts).ipAssigned
  {
    assert acts == acts[..k] + acts[k..];
    RunAppend(s, acts[..k], acts[k..]);
    IpAssignedIffBound(Run(s, acts[..k]), acts[k..]);
  }

  /** Every `ConnectIssued` in a driver label sequence comes straight
      after a `Took`; a leading one is allowed only when `atCheck` says the
      driver began at the readiness check. */
  predicate ConnectsFollowTakes(labels: seq<Label>, atCheck: bool)
  {
    && (|labels| > 0 && labels[0] == ConnectIssued ==> atCheck)
    && forall i :: 0 < i < |labels| && labels[i] == ConnectIssued ==> labels[i - 1] == Took
  }

  /** In the driver's own sequence of steps, every call to `wifi_connect`
      comes straight after a take, unless the driver was already at the
      readiness check when the run began. */
  lemma {:induction false} ConnectFollowsTake(s: System, acts: seq<Action>)
    ensures ConnectsFollowTakes(Labels(s, acts), s.phase == CheckReady)
    decreases |acts|
  {
    if |acts| > 0 {
      var s' := Step(s, acts[0]);
      ConnectFollowsTake(s', acts[1..]);
      var rest := Labels(s', acts[1..]);
      assert ConnectsFollowTakes(rest, s'.phase == CheckReady);
      var labels := Labels(s, acts);
      if acts[0].Drive? {
        var step := DriverStep(s, acts[0].requestAccepted);
        assert labels == [step.1] + rest;
        forall i | 0 < i < |labels| && labels[i] == ConnectIssued
          ensures labels[i - 1] == Took
        {
          assert rest[i - 1] == ConnectIssued;
          if i == 1 {
            assert s'.phase == CheckReady;
          }
        }
      } else {
        assert labels == rest;
      }
    }
  }

  /** From start-up, every `wifi_connect` is immediately preceded by a
      take of the readiness latch. */
  lemma ConnectOnlyAfterTake(acts: seq<Action>)
    ensures ConnectsFollowTakes(Labels(Boot, acts), false)
  {
    ConnectFollowsTake(Boot, acts);
  }

  /** While every readiness callback reports false, the driver never
      calls `wifi_connect`, however often it is woken. */
  lemma {:induction false} NoConnectWhileNotReady(s: System, acts: seq<Action>)
    requires !s.gate.ready
    requires forall i :: 0 <= i < |acts| && acts[i].ReadyCb? ==> !acts[i].ready
    ensures ConnectIssued !in Labels(s, acts)
    decreases |acts|
  {
    if |acts| > 0 {
      var s' := Step(s, acts[0]);
      assert forall i :: 0 <= i < |acts[1..]| ==> acts[1..][i] == acts[i + 1];
      NoConnectWhileNotReady(s', acts[1..]);
      if acts[0].Drive? {
        assert Labels(s, acts) == [DriverStep(s, acts[0].requestAccepted).1] + Labels(s', acts[1..]);
      } else {
        assert Labels(s, acts) == Labels(s', acts[1..]);
      }
    }
  }

  /** A failed attempt is never retried straight away: the driver's next
      step returns to the take, and from there a connect needs a fresh
      take first. */
  lemma FailedAttemptWaitsForGate(s: System, requestAccepted: bool, acts: seq<Action>)
    requires s.phase == AwaitResult && s.ctx.connectResult && !s.ctx.connected
    ensures DriverStep(s, requestAccepted).1 == SawFailed
    ensures ConnectsFollowTakes(Labels(DriverStep(s, requestAccepted).0, acts), false)
  {
    var s' := DriverStep(s, requestAccepted).0;
    assert s'.phase == WaitGate;
    ConnectFollowsTake(s', acts);
  }

  /** A successful attempt: readiness true, take, connect, result 0. The
      driver ends in the connected branch with `connected` set. */
  lemma SuccessfulAttempt()
    ensures var s := Run(Boot, [ReadyCb(true), Drive(true), Drive(true), WifiEvent(WifiConnectResult, 0), Drive(true)]);
      s.phase == ConnectedWait && s.ctx.connected && s.ctx.connectResult
  {
  }

  /** A failed attempt with status 1: the result is recorded, `connected`
      stays false and the driver goes back to the take. */
  lemma FailedAttempt()
    ensures var s := Run(Boot, [ReadyCb(true), Drive(true), Drive(true), WifiEvent(WifiConnectResult, 1), Drive(true)]);
      s.phase == WaitGate && !s.ctx.connected && s.ctx.connectResult
  {
  }

  /** The driver has no "only when idle" guard: a readiness signal that
      arrives while connected leads to another `wifi_connect`, which
      clears `connected` although no disconnect was reported. */
  lemma ReconnectWhileConnected()
    ensures var acts := [ReadyCb(true), Drive(true), Drive(true), WifiEvent(WifiConnectResult, 0), Drive(true)];
      var before := Run(Boot, acts);
      var after := Run(Boot, acts + [ReadyCb(true), Drive(true), Drive(true)]);
      && before.ctx.connected
      && Labels(before, [ReadyCb(true), Drive(true), Drive(true)]) == [Took, ConnectIssued]
      && !after.ctx.connected && after.phase == AwaitResult
  {
    var acts := [ReadyCb(true), Drive(true), Drive(true), WifiEvent(WifiConnectResult, 0), Drive(true)];
    var more := [ReadyCb(true), Drive(true), Drive(true)];
    SuccessfulAttempt();
    var before := Run(Boot, acts);
    RunAppend(Boot, acts, more);
    var t1 := Step(before, ReadyCb(true));
    assert t1.gate.sem.count == 1;
    var t2 := Step(t1, Drive(true));
    assert t2.phase == CheckReady && t2.gate.ready;
    var t3 := Step(t2, Drive(true));
    assert !t3.ctx.connected && t3.phase == AwaitResult;
    assert Run(before, more) == t3;
    assert Labels(t2, more[2..]) == [ConnectIssued];
    assert Labels(t1, more[1..]) == [Took, ConnectIssued];
  }

  /** With the driver already blocked in the take, the kernel hands the
      first give straight to it; the model shows this as a take step right
      after the callback. A second callback before the check overwrites
      the value and leaves a signal pending. So the driver is woken once
      per signal: it sees false, goes back to the take, finds the second
      signal there, sees false again and then blocks. */
  lemma BlockedDriverWakesPerSignal()
    ensures Labels(Boot, [Drive(true), ReadyCb(true), Drive(true), ReadyCb(false), Drive(true), Drive(true), Drive(true), Drive(true)])
      == [Blocked, Took, NotReady, Took, NotReady, Blocked]
  {
  }

  /** The driver ignores the return value of `wifi_connect`: a refused
      request moves the driver on exactly as an accepted one does. */
  lemma RefusedConnectIsIgnored(s: System)
    ensures DriverStep(s, false) == DriverStep(s, true)
  {
  }

  /** After a refused connect request no result event ever arrives, so the
      driver keeps polling; readiness callbacks only refill the latch and
      do not get it out of the polling loop. */
  lemma RefusedConnectKeepsPolling()
    ensures Labels(Boot, [ReadyCb(true), Drive(false), Drive(false), ReadyCb(false), ReadyCb(true), Drive(true), Drive(true)])
      == [Took, ConnectIssued, Polled, Polled]
    ensures Run(Boot, [ReadyCb(true), Drive(false), Drive(false), ReadyCb(false), ReadyCb(true), Drive(true), Drive(true)]).phase == AwaitResult
  {
  }
}
